=== FILE: README.md ===
# Comet Blue thermostat integrations — a Dafny model

This project models the core of two Home Assistant integrations for Eurotronic Comet Blue
Bluetooth radiator thermostats: the current `eurotronic_cometblue` integration and the legacy
`cometblue` one. It covers three layers:

- **Coordinator.** The command retry loop, the polling retry loop and the stale-value-preserving
  merge of a refresh into the cached data. It also covers the failure counter behind availability,
  and the legacy single-attempt / all-or-nothing variants.
- **Presenter and writes.** Hvac mode, hvac action and preset derived from the cached data. Also
  the temperature writes, which always carry `manualTemp` because the thermostat switches off
  without it. Also the number entities' bounds, reads and writes.
- **Service inputs.** Half-degree validation, the holiday temperature, the per-day schedule
  validator and the schedule, holiday and datetime payloads. Also the migration of missing entry
  options.

Modelling conventions:

- Temperatures are integers in half-degrees: 7.5 °C is 15, 28.5 °C is 57, and legacy 8 °C and
  28 °C are 16 and 56. Every attribute of the temperature group is a number in its own unit or
  `None`: half-degrees, minutes for `windowOpenMinutes`, 0/1 for `windowOpen`. Python truthiness
  is "present and non-zero" (`Values.Truthy`).
- Python's `None` is `Option.None`. An absent dict key and a key holding `None` are the same
  (`dict.get`). Exceptions are `Result.Err` values, or `HaError` values for `send_command`.
- The Bluetooth driver is replaced by scripted replies. `Device.Reply` is what one driver call
  returns or raises, and a retry loop reads one scripted attempt per iteration.
  `asyncio.sleep(1)` is counted, not timed.
- `datetime.now()` is a parameter. Datetimes are field tuples ordered chronologically. Times of
  day are seconds since midnight, because `datetime.time` carries seconds and `strftime("%H:%M")`
  drops them.
- `async_request_refresh` is the `refreshAfter` flag of a `Device.Write`. Entity writes set it and
  service writes do not.
- The schedule and holiday schemas the current integration imports from its own `utils` module
  are modelled from `custom_components/cometblue/utils.py`. The current integration's `utils.py`
  is not part of this model.

Modules: `Values`, `Clock`, `Device` (shared vocabulary), `Coordinator`, `Climate`, `Number`,
`Services` (current integration), `Validation`, `LegacyCoordinator`, `LegacyClimate`, and
`ClimateTerms` (the temperature write both climate entities share).

## Model

| member | source | states |
|---|---|---|
| Coordinator.SendCommand | custom_components/eurotronic_cometblue/coordinator.py:62-95 | At most `retry_count` attempts with one sleep between consecutive ones. Every attempt before the last failed transiently. The first success returns its value. A `ValueError` gives `ServiceValidationError` at once. A not-connected session or another exception propagates at once. Only a run of transient failures reaching `retry_count` gives `HomeAssistantError`. With `retry_count <= 0` there is no attempt and the result is `None`. |
| Coordinator.Refresh | custom_components/eurotronic_cometblue/coordinator.py:97-159 | The loop stops at the first attempt that reads the temperature group, and every earlier attempt failed transiently. `failed_update_count` grows by exactly one, and only when a transient error exhausts the retries; otherwise it is unchanged. Not-connected and other errors give `UpdateFailed` at once. A transient error in the optional reads after the temperatures were read still consumes a retry. Success returns the merge of what was read. With `retry_count <= 0` the merge dereferences `None`. |
| Coordinator.Merge | custom_components/eurotronic_cometblue/coordinator.py:150-157 | The result has the seven temperature keys and a holiday dict. Battery and holiday fall back to the old value only when nothing was read, and the holiday falls back to `{}` when neither exists. A temperature key falls back when the value read is falsy. |
| Coordinator.MergeIdempotent | custom_components/eurotronic_cometblue/coordinator.py:150-157 | Refreshing twice with unchanged device readings gives the same data as once. |
| Coordinator.FirstRefresh | custom_components/eurotronic_cometblue/coordinator.py:150-157 | The first refresh merges into `{}`. A temperature read as `0` or `None` is then reported as `None`. Battery is what was read, and a missing holiday read gives `{}`. |
| Coordinator.MergeKeepsKnownValues | custom_components/eurotronic_cometblue/coordinator.py:149-157 | A temperature value the old data held stays set after any refresh (stale over absent). |
| Coordinator.Poll | custom_components/eurotronic_cometblue/coordinator.py:112-147 | One update attempt. It retries only a transient error before the temperatures were read, and aborts only on an error that is not retried. It yields the temperatures once read. It aborts at once on a session that is not connected, and on a non-transient error from the session or the temperature read. An `InvalidByteValueError` from the battery or holiday read is skipped: the attempt yields what was read before it, and nothing later. Any other transient error from an optional read (`TimeoutError`, `BleakError`) leaves the holiday unread and is carried to the retry clause. A non-transient error there aborts the attempt. With every read returning, it yields all of them. |
| Coordinator.RefreshSeries | custom_components/eurotronic_cometblue/coordinator.py:113-147 | Over successive refreshes the failure counter never decreases and grows by at most one each time. |
| Coordinator.Available | custom_components/eurotronic_cometblue/coordinator.py:173-181 | Available iff `failed_update_count < retry_count` and the device is present. So it is never available when `retry_count <= 0`. |
| Coordinator.UnavailabilityIsPermanent | custom_components/eurotronic_cometblue/coordinator.py:174-181 | When each refresh adds at most one to the counter and none resets it, the entity stays unavailable forever once the counter reaches `retry_count`, whatever the device's presence. |
| Climate.Mode | custom_components/eurotronic_cometblue/climate.py:92-98 | OFF iff manual is 7.5, HEAT iff 28.5, AUTO otherwise. |
| Climate.Action | custom_components/eurotronic_cometblue/climate.py:101-110 | OFF iff manual is 7.5. Otherwise HEATING iff `(manual or 0) > (low or 0)` or manual is 28.5, and IDLE otherwise. |
| Climate.PresetOf | custom_components/eurotronic_cometblue/climate.py:113-128 | AWAY iff the holiday has no start, has an end, and its temperature equals manual. Otherwise COMFORT iff manual equals high, then ECO iff it equals low, else NONE. |
| Climate.PresetModes | custom_components/eurotronic_cometblue/climate.py:131-136 | Exactly comfort, eco and the current preset. |
| Climate.SetTemperature | custom_components/eurotronic_cometblue/climate.py:138-159 | Refused with nothing sent exactly when the preset is AWAY. Otherwise the write is the shared temperature write followed by a refresh. |
| Climate.SetPresetMode | custom_components/eurotronic_cometblue/climate.py:161-175 | A preset outside `preset_modes` is unsupported. NONE and AWAY are display-only. ECO writes the low target and COMFORT the high target as the requested temperature. |
| Climate.SetHvacMode | custom_components/eurotronic_cometblue/climate.py:177-188 | OFF writes 7.5 and HEAT writes 28.5. AUTO requests the low target, so it writes `low or manual`. Any other mode is a `ValueError`. |
| Climate.TurnOn | custom_components/eurotronic_cometblue/climate.py:190-192 | Turning on is AUTO, so it writes `low or manual`. |
| Climate.AutoReadBack | custom_components/eurotronic_cometblue/climate.py:184-192 | An accepted AUTO or turn-on sends `low or manual`. Read back, it shows AUTO iff that value is neither 7.5 nor 28.5. |
| Climate.TurnOnCanStayOff | custom_components/eurotronic_cometblue/climate.py:190-192 | Turning on an OFF thermostat with no low target leaves it OFF. |
| Climate.MergedReadings | custom_components/eurotronic_cometblue/climate.py:77-89 | Every refresh leaves data the entity can index. Manual, low and high are the values just read when truthy, else the ones kept. |
| Climate.TurnOff | custom_components/eurotronic_cometblue/climate.py:194-196 | Turning off writes 7.5, and that temperature read back shows OFF. |
| Climate.HvacModeRoundTrip | custom_components/eurotronic_cometblue/climate.py:180-183 | Setting OFF or HEAT and reading the written manual temperature back gives the same mode. |
| Climate.ModeAndActionAgree | custom_components/eurotronic_cometblue/climate.py:94-110 | Mode is OFF iff action is OFF, and HEAT always heats. |
| Climate.PresetPriority | custom_components/eurotronic_cometblue/climate.py:117-128 | AWAY beats comfort and eco. A tie of manual, low and high reads as COMFORT. |
| Climate.SettablePresets | custom_components/eurotronic_cometblue/climate.py:164-175 | A preset can be set iff it is eco or comfort and the current preset is not away. |
| Climate.WritesKeepManual | custom_components/eurotronic_cometblue/climate.py:146-159 | When the current manual temperature is set, every climate write sends a set `manualTemp`. |
| Climate.EcoWritesLowTarget | custom_components/eurotronic_cometblue/climate.py:168-171 | Outside AWAY, ECO always succeeds. It sends `manualTemp` equal to the low target, or the current manual temperature when the low target is unset or zero. |
| ClimateTerms.TemperatureWrite | custom_components/eurotronic_cometblue/climate.py:146-158 | The `set_temperature_async` values have exactly `manualTemp`, `targetTempLow` and `targetTempHigh`. `manualTemp` is the requested temperature when truthy, else the current manual temperature. The targets are passed unchanged. A refresh follows. |
| ClimateTerms.TemperatureWriteKeepsManual | custom_components/eurotronic_cometblue/climate.py:150-152 | A set manual temperature is never replaced by an unset one. |
| Number.Descriptions | custom_components/eurotronic_cometblue/number.py:44-93 | Four descriptions: offset, low target and high target in half-degrees, then the window duration in minutes. Each attribute is in `CONF_ALL_TEMPERATURES`, none is `manualTemp`, and no two share an attribute. Bounds are whole steps apart. The offset spans -5 to 5 °C, the targets span the climate's 7.5 to 28.5, and temperatures step by 0.5. The window duration spans 5 to 15 minutes in steps of 5. |
| Number.NativeValue | custom_components/eurotronic_cometblue/number.py:125-128 | `None` when the attribute is absent. On refreshed data it is the attribute's value. |
| Number.SetNativeValue | custom_components/eurotronic_cometblue/number.py:130-144 | The write holds exactly `manualTemp`, copied from the data, and the description's attribute set to the new value. A refresh follows. |
| Number.NumbersReadMergedValues | custom_components/eurotronic_cometblue/number.py:125-128 | Every number reads an attribute each refresh writes. Its value is the one just read when truthy, else the one kept. |
| Number.WindowMinutesValues | custom_components/eurotronic_cometblue/number.py:81-92 | The window duration admits exactly 5, 10 and 15 minutes. |
| Services.MigrateOptions | custom_components/eurotronic_cometblue/__init__.py:57-67 | No update iff both timeout and retry count are present. Otherwise present values are kept, missing ones become 20 and 3, and other keys are unchanged. |
| Services.MigrationIdempotent | custom_components/eurotronic_cometblue/__init__.py:63-67 | A second migration changes nothing. |
| Services.SetDatetimeService | custom_components/eurotronic_cometblue/__init__.py:124-136 | One write per listed entity, in order, carrying the given datetime or else now. |
| Services.WeekdayValues | custom_components/eurotronic_cometblue/__init__.py:170-174 | Exactly the days whose schedule is not `None`. Each keeps its keys with every time rendered as five characters `HH:MM`. |
| Services.RunService | custom_components/eurotronic_cometblue/__init__.py:129-136 | Each service loop issues its commands entity by entity. If every lookup and command returns, it issues all of them. Otherwise it issues a prefix and ends with the first error. An unknown entity is not sent, and a command that raised was sent. |
| Services.RaisedTurnEndsService | custom_components/eurotronic_cometblue/__init__.py:157-179 | No entity after the first one whose turn raises gets a command. |
| Services.SetScheduleService | custom_components/eurotronic_cometblue/__init__.py:152-179 | The same weekday values go to every listed entity. |
| Services.WeekdayValuesReadBack | custom_components/eurotronic_cometblue/__init__.py:171 | Each rendered time reads back as the submitted time truncated to the minute. |
| Services.RenderedDayStaysOrdered | custom_components/eurotronic_cometblue/__init__.py:170-174 | A validated day stays ordered after rendering, but only weakly: a start can equal its end. |
| Services.RenderingCanCloseInterval | custom_components/eurotronic_cometblue/__init__.py:170-174 | 08:00:10–08:00:50 is well ordered, yet both ends are sent as "08:00". |
| Services.SetHolidayService | custom_components/eurotronic_cometblue/__init__.py:181-215 | Refused before anything is sent iff the start truncated to the hour is earlier than now. Otherwise every listed entity gets slot 1 with start, end and temperature unchanged. |
| Services.PastStartRefused | custom_components/eurotronic_cometblue/__init__.py:186-195 | A start earlier than now is refused. |
| Services.LaterHourAccepted | custom_components/eurotronic_cometblue/__init__.py:186-195 | A start in a later hour than now is accepted. |
| Services.CurrentHourAcceptedOnlyOnTheHour | custom_components/eurotronic_cometblue/__init__.py:186-195 | A start within the current hour is accepted iff now is exactly on the hour. |
| Validation.ValidateHalfPrecision | custom_components/cometblue/utils.py:26-39 | A number passes, unchanged, iff it is a multiple of one half. Anything else is `Invalid`. |
| Validation.HalfDegreesAccepted | custom_components/cometblue/utils.py:29-35 | Every half-degree value passes, and converts back to the same count of half-degrees. |
| Validation.AcceptedAreHalfDegrees | custom_components/cometblue/utils.py:29-35 | Every value that passes is a whole number of half-degrees. |
| Validation.HolidayTemperature | custom_components/cometblue/utils.py:111-115 | Accepted iff a number in [8, 28] and a multiple of one half. The result lies in the legacy climate limits. |
| Validation.ScheduleKeys | custom_components/cometblue/utils.py:89-93 | `start1..start4` followed by `end1..end4`. |
| Validation.ScheduleKeysDistinct | custom_components/cometblue/utils.py:89-93 | The eight keys are pairwise different (a sanity fact about literals). |
| Validation.CheckPairs | custom_components/cometblue/utils.py:54-84 | The pair loop from pair `i` on. A refusal names a pair at or after `i`. |
| Validation.CheckPairsBlamesPair | custom_components/cometblue/utils.py:60-82 | A half-pair refusal names a pair with one end missing. An empty-range refusal names a complete pair whose start is not before its end. An overlap refusal names a complete pair. |
| Validation.CheckPairsCorrect | custom_components/cometblue/utils.py:54-84 | Comparing each present pair with the previous present one is the same as requiring that every pair is complete or absent, every interval is non-empty, and every interval ends no later than any later one starts. |
| Validation.ValidateSchedule | custom_components/cometblue/utils.py:41-86 | A set `delete` gives `{}`. No times gives `None`. Otherwise the times are returned unchanged iff they are well ordered, else `Invalid`. |
| Validation.OverlappingExample | custom_components/cometblue/utils.py:78-82 | 08:00–09:00 then 08:30–10:00 is refused as overlapping at pair 2. |
| Validation.SeparateExample | custom_components/cometblue/utils.py:54-86 | 08:00–09:00 then 09:30–10:00 is accepted unchanged. |
| LegacyCoordinator.SendCommand | custom_components/cometblue/coordinator.py:50-70 | One attempt, never retried. `ValueError` gives "Invalid payload" and `BleakError` gives "Error sending command". A not-connected session and other exceptions propagate. |
| LegacyCoordinator.CompareWithCurrent | custom_components/cometblue/coordinator.py:50-70 | Against one attempt of the current `send_command`: the results agree except on `TimeoutError`, `InvalidByteValueError` and other `ValueError`s. Those give "Error sending command", "Error sending command" and `ServiceValidationError` in the current integration, and propagated, "Invalid payload" and "Invalid payload" in the legacy one. |
| LegacyCoordinator.Refresh | custom_components/cometblue/coordinator.py:72-92 | Succeeds iff the session is connected and all three reads return. The data then holds `battery`, `datetime` and every temperature key, and temperature keys win on collision. |
| LegacyCoordinator.Available | custom_components/cometblue/coordinator.py:106-115 | Available iff the last update succeeded, the device is present and the entity is not marked unavailable. |
| LegacyCoordinator.AvailabilityFollowsLastRefresh | custom_components/cometblue/coordinator.py:106-115 | A present entity is available iff the latest refresh succeeded, so availability recovers. |
| LegacyClimate.Mode | custom_components/cometblue/climate.py:55-56 | The only hvac mode is AUTO. |
| LegacyClimate.PresetOf | custom_components/cometblue/climate.py:89-100 | ECO iff manual equals low, else COMFORT iff it equals high, else NONE. Never AWAY. |
| LegacyClimate.SetTemperature | custom_components/cometblue/climate.py:102-118 | The shared temperature write, with no holiday check. |
| LegacyClimate.SetPresetMode | custom_components/cometblue/climate.py:120-130 | Presets outside the list are unsupported, NONE and AWAY are refused, ECO writes low and COMFORT writes high. |
| LegacyClimate.SettablePresets | custom_components/cometblue/climate.py:120-130 | A preset can be set iff it is eco or comfort, with no holiday check. |
| LegacyClimate.HolidayLockOnlyInCurrent | custom_components/cometblue/climate.py:102-130 | During a holiday the current integration refuses eco, comfort and temperature writes, and the legacy one accepts eco and comfort. |
| LegacyClimate.SameTemperatureWrite | custom_components/cometblue/climate.py:102-118 | The two integrations send the same temperature write iff no holiday is showing. |
| LegacyClimate.ModesDiffer | custom_components/cometblue/climate.py:55-56 | The legacy mode differs from the current one exactly when manual is 7.5 or 28.5. |
| LegacyClimate.RefreshedReadings | custom_components/cometblue/climate.py:75-87 | After a successful refresh that read manual, low and high, the entity reads exactly those values. |
| LegacyClimate.PresetVariantsDiffer | custom_components/cometblue/climate.py:95-100 | Outside a holiday, the two integrations report different presets iff manual equals both targets. There the current one says COMFORT and the legacy one ECO. |
| Clock.RenderHHMM | custom_components/eurotronic_cometblue/__init__.py:171 | `strftime("%H:%M")` gives five characters with a colon in the middle. |
| Clock.RenderThenParse | custom_components/eurotronic_cometblue/__init__.py:171 | `HH:MM` rendering is inverted by parsing, up to the dropped seconds. |

## Left out

- The Bluetooth transport and the driver library, including the GATT reads of firmware and
  manufacturer at setup. Every driver call is a scripted reply.
- Home Assistant plumbing: service registration and schemas as wiring, entity-registry lookup
  (`get_coordinator_for_service`), platform forwarding and unload, and the `get_schedule`
  service, which only forwards a read to the driver.
- The range check Home Assistant applies to number values before `async_set_native_value`.
  `Number.InRange` states the declared bounds, and the entity itself does not check them.
- Both config flows, the legacy battery sensor (a plain `data.get("battery")`), and the constant
  files as files. Their values appear as constants.
- Real time: sleep durations, the 5-minute scan interval, per-attempt timeouts, and interleaving of
  scheduled and post-write refreshes. The session context manager is one scripted `Reply<bool>`.
- Floating point. Temperatures are exact half-degrees, so a device value that is not a multiple
  of 0.5 °C cannot be represented. `Validation` uses exact reals for `value % 0.5`.
- Logging and exception messages. Errors keep only their class and cause.
- Coordinator.Refresh: does not model the Home Assistant coordinator turning `UpdateFailed` and
  the crash into `last_update_success = False`. It returns the outcome only.
- LegacyClimate.ReadingsOf and Climate.ReadingsOf read the keys the entities index directly. They
  require those keys to be present, which the first refresh guarantees before entities exist.
- Number.SetNativeValue: requires `manualTemp` in the data and does not model the `KeyError`
  raised before the first refresh. Entities exist only after that refresh.
- Services.SetDatetimeService: the dispatch list is what is issued when every lookup and command
  returns. The first raised error ends the service (Services.RunService).
- Services.SetScheduleService: likewise, the dispatch list is the complete run (Services.RunService).
- Services.SetHolidayService: likewise, after the start check the dispatch list is the complete run
  (Services.RunService).
- ClimateTerms.TemperatureWrite: `refreshAfter` holds only when `send_command` returns. A raised
  error skips the refresh the entity requests afterwards. The same holds for Number.SetNativeValue.
- Device.Failure: `InvalidByteValueError` is treated as a `ValueError` subclass for both driver
  libraries. The driver sources are not part of this model.

## Notes on the code as written

- The failure counter of the current integration is only ever incremented.
  `Coordinator.UnavailabilityIsPermanent` follows the code rather than a reset-on-success design.
- A not-connected session raises `ConfigEntryNotReady`. That error is not in the retried tuple,
  so both loops end at once on it.
- Temperature keys merge with `or`, so a freshly read `0`, `0.0` or `False` keeps the old value.
- With `retry_count <= 0`, refresh reaches the merge with no temperatures read and dereferences
  `None` (`Coordinator.RefreshResult.Crashed`).
- Schedule intervals are checked with seconds but sent as `HH:MM`, so an accepted interval can
  reach the device with equal start and end (`Services.RenderingCanCloseInterval`). Only the weak
  order survives (`Services.RenderedDayStaysOrdered`).

=== FILE: climate.dfy ===
/** The current integration's climate entity: hvac mode, hvac action and preset derived from the
    coordinator's data, and the writes that set them. Temperatures are in half-degrees. */
module Climate {
  import opened Values
  import opened Device
  import opened ClimateTerms
  import Coordinator

  /** 7.5 °C and 28.5 °C: the manual temperatures that mean OFF and HEAT. */
  const MinTemp := 15
  const MaxTemp := 57

  /** What the climate entity reads from the coordinator's data. */
  datatype Readings = Readings(manual: Option<int>, low: Option<int>, high: Option<int>, holiday: Holiday)

  function ReadingsOf(s: Coordinator.Snapshot): Readings
    requires Coordinator.Merged(s)
  {
    Readings(s.temps["manualTemp"], s.temps["targetTempLow"], s.temps["targetTempHigh"], s.holiday.value)
  }

  /** `hvac_mode`: the extreme manual temperatures double as OFF and HEAT. */
  function Mode(r: Readings): (m: HvacMode)
    ensures m == HvacMode.Off <==> r.manual == Some(MinTemp)
    ensures m == Heat <==> r.manual == Some(MaxTemp)
    ensures m == Auto <==> r.manual != Some(MinTemp) && r.manual != Some(MaxTemp)
  {
    if r.manual == Some(MinTemp) then HvacMode.Off
    else if r.manual == Some(MaxTemp) then Heat
    else Auto
  }

  /** `x or 0.0` for a number-or-None. */
  function OrZero(v: Option<int>): int {
    v.GetOr(0)
  }

  /** `hvac_action`. */
  function Action(r: Readings): (a: HvacAction)
    ensures a == HvacAction.Off <==> r.manual == Some(MinTemp)
    ensures a == Heating <==>
              r.manual != Some(MinTemp) && (OrZero(r.manual) > OrZero(r.low) || r.manual == Some(MaxTemp))
  {
    if r.manual == Some(MinTemp) then HvacAction.Off
    else if OrZero(r.manual) > OrZero(r.low) || r.manual == Some(MaxTemp) then Heating
    else Idle
  }

  /** The holiday window the device reports as running: no start, an end, and the manual
      temperature equal to the holiday temperature (`None == None` included). */
  predicate OnHoliday(r: Readings) {
    r.holiday.start.None? && r.holiday.end.Some? && r.manual == r.holiday.temperature
  }

  /** `preset_mode`, in the order the thermostat shows them: away, comfort, eco, none. */
  function PresetOf(r: Readings): (p: Preset)
    ensures p == Away <==> OnHoliday(r)
    ensures p == Comfort <==> !OnHoliday(r) && r.manual == r.high
    ensures p == Eco <==> !OnHoliday(r) && r.manual != r.high && r.manual == r.low
    ensures p == NoPreset <==> !OnHoliday(r) && r.manual != r.high && r.manual != r.low
  {
    if OnHoliday(r) then Away
    else if r.manual == r.high then Comfort
    else if r.manual == r.low then Eco
    else NoPreset
  }

  /** `preset_modes`: comfort, eco and whatever preset is current. */
  function PresetModes(r: Readings): (ps: set<Preset>)
    ensures Comfort in ps && Eco in ps && PresetOf(r) in ps
    ensures forall p :: p in ps ==> p == Comfort || p == Eco || p == PresetOf(r)
  {
    {Comfort, Eco, PresetOf(r)}
  }

  /** `async_set_temperature`: refused while the holiday preset is showing. */
  function SetTemperature(r: Readings, req: TemperatureRequest): (w: Result<Write, Rejection>)
    ensures w.Err? <==> PresetOf(r) == Away
    ensures w.Err? ==> w.error == AwayLocked
    ensures w.Ok? ==> w.value == TemperatureWrite(r.manual, req)
  {
    if PresetOf(r) == Away then Err(AwayLocked)
    else Ok(TemperatureWrite(r.manual, req))
  }

  /** `async_set_preset_mode`: only eco and comfort can be set; they write the low and the
      high target as the manual temperature. */
  function SetPresetMode(r: Readings, p: Preset): (w: Result<Write, Rejection>)
    ensures p !in PresetModes(r) ==> w == Err(UnsupportedPreset(p))
    ensures p in PresetModes(r) && (p == NoPreset || p == Away) ==> w == Err(DisplayOnly(p))
    ensures p == Eco ==> w == SetTemperature(r, Target(r.low))
    ensures p == Comfort ==> w == SetTemperature(r, Target(r.high))
  {
    if p !in PresetModes(r) then Err(UnsupportedPreset(p))
    else if p == NoPreset || p == Away then Err(DisplayOnly(p))
    else if p == Eco then SetTemperature(r, Target(r.low))
    else SetTemperature(r, Target(r.high))
  }

  /** `async_set_hvac_mode`: OFF and HEAT write the extreme temperatures, AUTO `low or manual`. */
  function SetHvacMode(r: Readings, m: HvacMode): (w: Result<Write, Rejection>)
    ensures m == HvacMode.Off ==> w == SetTemperature(r, Target(Some(MinTemp)))
    ensures m == Heat ==> w == SetTemperature(r, Target(Some(MaxTemp)))
    ensures m == Auto ==> w == SetTemperature(r, Target(r.low))
    ensures m !in {HvacMode.Off, Heat, Auto} ==> w == Err(UnknownHvacMode(m))
  {
    match m
    case Off => SetTemperature(r, Target(Some(MinTemp)))
    case Heat => SetTemperature(r, Target(Some(MaxTemp)))
    case Auto => SetTemperature(r, Target(r.low))
    case _ => Err(UnknownHvacMode(m))
  }

  /** `async_turn_on`: AUTO, which writes `low or manual`. */
  function TurnOn(r: Readings): (w: Result<Write, Rejection>)
    ensures w == SetTemperature(r, Target(r.low))
  {
    SetHvacMode(r, Auto)
  }

  /** `async_turn_off`: OFF, which writes the minimum temperature. */
  function TurnOff(r: Readings): (w: Result<Write, Rejection>)
    ensures w == SetTemperature(r, Target(Some(MinTemp)))
    ensures w.Ok? ==> Mode(AfterWrite(r, w.value)) == HvacMode.Off
  {
    SetHvacMode(r, HvacMode.Off)
  }

  /** The readings after the device has taken the manual temperature of a write. */
  function AfterWrite(r: Readings, w: Write): Readings
    requires w.call.SetTemperature? && "manualTemp" in w.call.values
  {
    r.(manual := w.call.values["manualTemp"])
  }

  /** Setting OFF or HEAT and reading the written temperature back shows that mode again. */
  lemma HvacModeRoundTrip(r: Readings, m: HvacMode)
    requires m == HvacMode.Off || m == Heat
    requires SetHvacMode(r, m).Ok?
    ensures Mode(AfterWrite(r, SetHvacMode(r, m).value)) == m
  {
  }

  /** Mode and action agree on OFF, and HEAT always heats. */
  lemma ModeAndActionAgree(r: Readings)
    ensures Mode(r) == HvacMode.Off <==> Action(r) == HvacAction.Off
    ensures Mode(r) == Heat ==> Action(r) == Heating
  {
  }

  /** The holiday preset wins over comfort and eco, and a tie between the targets reads as comfort. */
  lemma PresetPriority(r: Readings)
    ensures OnHoliday(r) ==> PresetOf(r) == Away
    ensures !OnHoliday(r) && r.manual == r.low && r.low == r.high ==> PresetOf(r) == Comfort
  {
  }

  /** Exactly eco and comfort are settable, and setting them is refused only while away. */
  lemma SettablePresets(r: Readings, p: Preset)
    ensures SetPresetMode(r, p).Ok? <==> (p == Eco || p == Comfort) && PresetOf(r) != Away
  {
  }

  /** Every write the climate entity makes keeps a set manual temperature set. */
  lemma WritesKeepManual(r: Readings, p: Preset, m: HvacMode, req: TemperatureRequest)
    requires Truthy(r.manual)
    ensures SetTemperature(r, req).Ok? ==> Truthy(SetTemperature(r, req).value.call.values["manualTemp"])
    ensures SetPresetMode(r, p).Ok? ==> Truthy(SetPresetMode(r, p).value.call.values["manualTemp"])
    ensures SetHvacMode(r, m).Ok? ==> Truthy(SetHvacMode(r, m).value.call.values["manualTemp"])
  {
  }

  /** Eco writes the low target as manual temperature (or keeps the current one when the low
      target is unset) and always sends `manualTemp`. */
  lemma EcoWritesLowTarget(r: Readings)
    requires PresetOf(r) != Away
    ensures SetPresetMode(r, Eco).Ok?
    ensures var values := SetPresetMode(r, Eco).value.call.values;
            "manualTemp" in values && values["manualTemp"] == (if Truthy(r.low) then r.low else r.manual)
  {
  }

  /** AUTO, and so turning on, sends `low or manual`; the thermostat then shows AUTO exactly when
      that value is neither extreme. A low target at either extreme, or a missing low target
      while OFF, leaves it in OFF or HEAT. */
  lemma AutoReadBack(r: Readings)
    requires TurnOn(r).Ok?
    ensures SetHvacMode(r, Auto) == TurnOn(r)
    ensures TurnOn(r).value.call.values["manualTemp"] == Or(r.low, r.manual)
    ensures Mode(AfterWrite(r, TurnOn(r).value)) == Auto <==>
              Or(r.low, r.manual) != Some(MinTemp) && Or(r.low, r.manual) != Some(MaxTemp)
  {
  }

  /** Turning on a thermostat that is OFF and has no low target leaves it OFF. */
  lemma TurnOnCanStayOff()
    ensures var r := Readings(Some(MinTemp), None, None, NoHoliday);
            TurnOn(r).Ok? && Mode(AfterWrite(r, TurnOn(r).value)) == HvacMode.Off
  {
  }

  /** What the entity reads after a refresh: every refresh leaves data the entity can read, and its
      manual temperature is the one just read when truthy, else the one kept. */
  lemma MergedReadings(previous: Coordinator.Snapshot, battery: Option<int>, holiday: Option<Holiday>, fetched: Dict)
    ensures var s := Coordinator.Merge(previous, battery, holiday, fetched);
            && Coordinator.Merged(s)
            && ReadingsOf(s).manual == Or(Get(fetched, "manualTemp"), Get(previous.temps, "manualTemp"))
            && ReadingsOf(s).low == Or(Get(fetched, "targetTempLow"), Get(previous.temps, "targetTempLow"))
            && ReadingsOf(s).high == Or(Get(fetched, "targetTempHigh"), Get(previous.temps, "targetTempHigh"))
  {
  }
}

=== FILE: clock.dfy ===
/** Naive datetimes and times of day, as the services receive them. */
module Clock {
  import opened Values

  /** A naive `datetime`, field by field. */
  datatype DateTime = DateTime(year: int, month: int, day: int, hour: int, minute: int, second: int, microsecond: int)

  predicate Valid(t: DateTime) {
    && 1 <= t.month <= 12 && 1 <= t.day <= 31
    && 0 <= t.hour < 24 && 0 <= t.minute < 60 && 0 <= t.second < 60
    && 0 <= t.microsecond < 1000000
  }

  /** Chronological order of datetimes, which is the order of their fields. */
  predicate Before(a: DateTime, b: DateTime) {
    if a.year != b.year then a.year < b.year
    else if a.month != b.month then a.month < b.month
    else if a.day != b.day then a.day < b.day
    else if a.hour != b.hour then a.hour < b.hour
    else if a.minute != b.minute then a.minute < b.minute
    else if a.second != b.second then a.second < b.second
    else a.microsecond < b.microsecond
  }

  /** `datetime(t.year, t.month, t.day, t.hour)`. */
  function TruncateToHour(t: DateTime): DateTime {
    DateTime(t.year, t.month, t.day, t.hour, 0, 0, 0)
  }

  /** A `datetime.time`, as seconds since midnight. */
  type TimeOfDay = t: int | 0 <= t < 86400

  function Digit(n: int): char
    requires 0 <= n < 10
  {
    ('0' as int + n) as char
  }

  function DigitValue(c: char): Option<int> {
    if '0' <= c <= '9' then Some(c as int - '0' as int) else None
  }

  function Pad2(n: int): string
    requires 0 <= n < 100
  {
    [Digit(n / 10), Digit(n % 10)]
  }

  /** `t.strftime("%H:%M")`: the seconds are dropped. */
  function RenderHHMM(t: TimeOfDay): (s: string)
    ensures |s| == 5 && s[2] == ':'
  {
    Pad2(t / 3600) + ":" + Pad2(t % 3600 / 60)
  }

  /** Reads an `HH:MM` text back as seconds since midnight. */
  function ParseHHMM(s: string): Option<int> {
    if |s| != 5 || s[2] != ':' then None
    else
      match (DigitValue(s[0]), DigitValue(s[1]), DigitValue(s[3]), DigitValue(s[4]))
      case (Some(h1), Some(h0), Some(m1), Some(m0)) =>
        var h := 10 * h1 + h0;
        var m := 10 * m1 + m0;
        if h < 24 && m < 60 then Some(3600 * h + 60 * m) else None
      case _ => None
  }

  /** The start of the minute that holds `t`. */
  function MinuteOf(t: TimeOfDay): int {
    t / 60 * 60
  }

  lemma DigitRoundTrip(n: int)
    requires 0 <= n < 10
    ensures DigitValue(Digit(n)) == Some(n)
  {
  }

  /** Rendering a time and reading it back gives the time truncated to the minute. */
  lemma RenderThenParse(t: TimeOfDay)
    ensures ParseHHMM(RenderHHMM(t)) == Some(MinuteOf(t))
  {
    var h := t / 3600;
    var m := t % 3600 / 60;
    var s := RenderHHMM(t);
    DigitRoundTrip(h / 10);
    DigitRoundTrip(h % 10);
    DigitRoundTrip(m / 10);
    DigitRoundTrip(m % 10);
    assert s[0] == Digit(h / 10) && s[1] == Digit(h % 10);
    assert s[3] == Digit(m / 10) && s[4] == Digit(m % 10);
    assert 10 * (h / 10) + h % 10 == h;
    assert 10 * (m / 10) + m % 10 == m;
    assert t == 3600 * h + 60 * m + t % 60;
    assert t / 60 == 60 * h + m;
  }

  /** Truncation to the minute keeps the order of times (not the strict order). */
  lemma MinuteOfMonotone(a: TimeOfDay, b: TimeOfDay)
    requires a <= b
    ensures MinuteOf(a) <= MinuteOf(b)
  {
    assert a / 60 <= b / 60;
  }
}

=== FILE: coordinator.dfy ===
/** The current integration's coordinator: the command retry loop, the polling retry loop,
    the stale-value-preserving merge and the failure counter behind availability. */
module Coordinator {
  import opened Values
  import opened Device

  const DefaultRetryCount := 3
  const DefaultTimeoutSeconds := 20

  /** The holiday slot `set_holiday` writes. */
  const HolidaySlot := 1

  /** `CONF_ALL_TEMPERATURES`: the mandatory attribute group. */
  const AllTemperatures: set<string> := {
    "currentTemp", "manualTemp", "targetTempLow", "targetTempHigh",
    "tempOffset", "windowOpen", "windowOpenMinutes"
  }

  /** The coordinator's data: battery level, holiday dict and the temperature group. */
  datatype Snapshot = Snapshot(battery: Option<int>, holiday: Option<Holiday>, temps: Dict)

  /** The data before the first refresh: `{}`. */
  const Initial := Snapshot(None, None, map[])

  /** The shape every successful refresh leaves behind. */
  predicate Merged(s: Snapshot) {
    s.temps.Keys == AllTemperatures && s.holiday.Some?
  }

  /** Builds the new data from the previous one and what this refresh obtained: battery and holiday
      fall back to the previous value when nothing was read, a temperature key falls back when the
      value read is falsy, and the holiday is `{}` when neither exists. */
  function Merge(previous: Snapshot, battery: Option<int>, holiday: Option<Holiday>, fetched: Dict): (s: Snapshot)
    ensures Merged(s)
    ensures battery.Some? ==> s.battery == battery
    ensures battery.None? ==> s.battery == previous.battery
    ensures holiday.Some? ==> s.holiday == holiday
    ensures holiday.None? && previous.holiday.Some? ==> s.holiday == previous.holiday
    ensures holiday.None? && previous.holiday.None? ==> s.holiday == Some(NoHoliday)
    ensures forall k :: k in AllTemperatures && Truthy(Get(fetched, k)) ==> s.temps[k] == fetched[k]
    ensures forall k :: k in AllTemperatures && !Truthy(Get(fetched, k)) ==> s.temps[k] == Get(previous.temps, k)
  {
    Snapshot(
      if battery.Some? then battery else previous.battery,
      Some(if holiday.Some? then holiday.value else previous.holiday.GetOr(NoHoliday)),
      map k | k in AllTemperatures :: Or(Get(fetched, k), Get(previous.temps, k)))
  }

  /** Refreshing twice with the same readings gives the same data as refreshing once. */
  lemma MergeIdempotent(previous: Snapshot, battery: Option<int>, holiday: Option<Holiday>, fetched: Dict)
    ensures var once := Merge(previous, battery, holiday, fetched);
            Merge(once, battery, holiday, fetched) == once
  {
    var once := Merge(previous, battery, holiday, fetched);
    var twice := Merge(once, battery, holiday, fetched);
    assert twice.temps.Keys == once.temps.Keys;
    forall k | k in AllTemperatures
      ensures twice.temps[k] == once.temps[k]
    {
      assert Get(once.temps, k) == once.temps[k];
    }
  }

  /** The first refresh starts from `{}`: a temperature read as `0` or `None` is reported as `None`,
      and a missing holiday read leaves `{}`. */
  lemma FirstRefresh(battery: Option<int>, holiday: Option<Holiday>, fetched: Dict, k: string)
    requires k in AllTemperatures
    ensures var s := Merge(Initial, battery, holiday, fetched);
            && s.temps[k] == (if Truthy(Get(fetched, k)) then fetched[k] else None)
            && s.battery == battery
            && s.holiday == Some(holiday.GetOr(NoHoliday))
  {
  }

  /** Stale over absent: a value the previous data had keeps being reported. */
  lemma MergeKeepsKnownValues(previous: Snapshot, battery: Option<int>, holiday: Option<Holiday>, fetched: Dict, k: string)
    requires k in AllTemperatures && Truthy(Get(previous.temps, k))
    ensures Truthy(Merge(previous, battery, holiday, fetched).temps[k])
  {
  }

  // ---------------------------------------------------------------- send_command

  /** Failures `send_command` retries. */
  predicate Retryable(p: Problem) {
    p.Raised? && Transient(p.failure)
  }

  /** The exception `send_command` ends with for a problem it does not retry further. */
  function CommandFailure(p: Problem): HaError {
    match p
    case NotConnected => NotReady
    case Raised(f) =>
      if Transient(f) then SendFailed(f)
      else if f.BadValue? then PayloadRejected(f)
      else Unhandled(f)
  }

  /** `send_command`: up to `limit` attempts, one sleep between consecutive attempts;
      only transient errors are retried. `script[i]` is what attempt i meets. */
  method SendCommand<R>(limit: int, script: seq<CommandAttempt<R>>)
    returns (r: CommandResult<R>, attempts: nat, sleeps: nat)
    requires limit <= |script|
    ensures limit <= 0 ==> r == Done(None) && attempts == 0 && sleeps == 0
    ensures limit > 0 ==> 0 < attempts <= limit && sleeps == attempts - 1
    ensures forall i :: 0 <= i < attempts - 1 ==> Attempt(script[i]).Err? && Retryable(Attempt(script[i]).error)
    ensures 0 < attempts && Attempt(script[attempts - 1]).Ok? ==>
              r == Done(Some(Attempt(script[attempts - 1]).value))
    ensures 0 < attempts && Attempt(script[attempts - 1]).Err? ==>
              r == CommandError(CommandFailure(Attempt(script[attempts - 1]).error))
    ensures 0 < attempts && Attempt(script[attempts - 1]).Err? && Retryable(Attempt(script[attempts - 1]).error) ==>
              attempts == limit
  {
    attempts, sleeps := 0, 0;
    var retry := 0;
    while retry < limit
      invariant retry == attempts == sleeps
      invariant retry == 0 || retry < limit
      invariant forall i :: 0 <= i < attempts ==> Attempt(script[i]).Err? && Retryable(Attempt(script[i]).error)
    {
      var outcome := Attempt(script[attempts]);
      attempts := attempts + 1;
      match outcome
      case Ok(v) =>
        return Done(Some(v)), attempts, sleeps;
      case Err(p) =>
        if Retryable(p) {
          retry := retry + 1;
          if retry >= limit {
            return CommandError(SendFailed(p.failure)), attempts, sleeps;
          }
          sleeps := sleeps + 1;
        } else {
          return CommandError(CommandFailure(p)), attempts, sleeps;
        }
    }
    r := Done(None);
  }

  // ---------------------------------------------------------------- refresh

  /** One refresh attempt: entering the session, then the reads of the temperature group,
      the battery and the holiday (each read only when the previous one was reached). */
  datatype PollAttempt = PollAttempt(
    session: Reply<bool>,
    temperatures: Reply<Dict>,
    battery: Reply<Option<int>>,
    holiday: Reply<Option<Holiday>>)

  /** How one refresh attempt ends.
      Retry: a transient error before the temperatures were read.
      Abort: an error that is not retried (including a session that is not connected).
      Fetched: the temperatures were read; `late` is a transient error that the optional reads
      raised afterwards and that still reached the retry clause. */
  datatype PollEnd =
    | Retry(failure: Failure)
    | Abort(problem: Problem)
    | Fetched(temperatures: Dict, battery: Option<int>, holiday: Option<Holiday>, late: Option<Failure>)

  function Escalate(f: Failure): PollEnd {
    if Transient(f) then Retry(f) else Abort(Raised(f))
  }

  /** An optional read failed: `InvalidByteValueError` is logged and skipped,
      other transient errors reach the outer retry clause, anything else aborts. */
  function OptionalFailed(t: Dict, battery: Option<int>, f: Failure): PollEnd {
    if f.InvalidByte? then Fetched(t, battery, None, None)
    else if Transient(f) then Fetched(t, battery, None, Some(f))
    else Abort(Raised(f))
  }

  /** How one attempt of `_async_update_data` ends: an error before the temperatures were read
      is retried only when transient; once they were read, the attempt yields them. */
  function Poll(a: PollAttempt): (e: PollEnd)
    ensures e.Retry? ==> Transient(e.failure) && (a.session.Raise? || (a.session == Return(true) && a.temperatures.Raise?))
    ensures e.Abort? ==> !Retryable(e.problem)
    ensures e.Fetched? ==> a.session == Return(true) && a.temperatures.Return? && e.temperatures == a.temperatures.value
    ensures e.Fetched? && e.late.Some? ==> Transient(e.late.value) && !e.late.value.InvalidByte? && e.holiday.None?
    ensures a.session == Return(false) ==> e == Abort(NotConnected)
    ensures a.session.Raise? && Transient(a.session.failure) ==> e == Retry(a.session.failure)
    ensures a.session == Return(true) && a.temperatures.Raise? && Transient(a.temperatures.failure) ==>
              e == Retry(a.temperatures.failure)
    ensures a.session == Return(true) && a.temperatures.Return? && a.battery.Raise? && !a.battery.failure.InvalidByte? ==>
              e == if Transient(a.battery.failure) then Fetched(a.temperatures.value, None, None, Some(a.battery.failure))
                   else Abort(Raised(a.battery.failure))
    ensures a.session == Return(true) && a.temperatures.Return? && a.battery.Return? && a.holiday.Raise?
            && !a.holiday.failure.InvalidByte? ==>
              e == if Transient(a.holiday.failure) then Fetched(a.temperatures.value, a.battery.value, None, Some(a.holiday.failure))
                   else Abort(Raised(a.holiday.failure))
    ensures a.session.Raise? && !Transient(a.session.failure) ==> e == Abort(Raised(a.session.failure))
    ensures a.session == Return(true) && a.temperatures.Raise? && !Transient(a.temperatures.failure) ==>
              e == Abort(Raised(a.temperatures.failure))
    ensures a.session == Return(true) && a.temperatures.Return? && a.battery == Raise(InvalidByte) ==>
              e == Fetched(a.temperatures.value, None, None, None)
    ensures a.session == Return(true) && a.temperatures.Return? && a.battery.Return? && a.holiday == Raise(InvalidByte) ==>
              e == Fetched(a.temperatures.value, a.battery.value, None, None)
    ensures a.session == Return(true) && a.temperatures.Return? && a.battery.Return? && a.holiday.Return? ==>
              e == Fetched(a.temperatures.value, a.battery.value, Some(a.holiday.value.GetOr(NoHoliday)), None)
  {
    match a.session
    case Raise(f) => Escalate(f)
    case Return(connected) =>
      if !connected then Abort(NotConnected)
      else
        match a.temperatures
        case Raise(f) => Escalate(f)
        case Return(t) =>
          match a.battery
          case Raise(f) => OptionalFailed(t, None, f)
          case Return(b) =>
            match a.holiday
            case Raise(f) => OptionalFailed(t, b, f)
            case Return(h) => Fetched(t, b, Some(h.GetOr(NoHoliday)), None)
  }

  /** `UpdateFailed` carries the problem that ended the refresh; Crashed is the `AttributeError`
      the merge raises when no attempt ran at all. */
  datatype RefreshResult = Refreshed(data: Snapshot) | UpdateFailed(problem: Problem) | Crashed

  /** `_async_update_data`: `failed` is `failed_update_count` before, `failedAfter` after. */
  method Refresh(limit: int, failed: nat, data: Snapshot, script: seq<PollAttempt>)
    returns (r: RefreshResult, failedAfter: nat, attempts: nat, sleeps: nat)
    requires limit <= |script|
    ensures failed <= failedAfter <= failed + 1
    ensures failedAfter == failed + 1 <==> r.UpdateFailed? && Retryable(r.problem)
    ensures limit <= 0 ==> r == Crashed && attempts == 0 && sleeps == 0
    ensures limit > 0 ==> 0 < attempts <= limit
    ensures forall i :: 0 <= i < attempts - 1 ==> Poll(script[i]).Retry?
    ensures 0 < attempts && Poll(script[attempts - 1]).Abort? ==>
              r == UpdateFailed(Poll(script[attempts - 1]).problem) && sleeps == attempts - 1
    ensures 0 < attempts && Poll(script[attempts - 1]).Retry? ==>
              attempts == limit && r == UpdateFailed(Raised(Poll(script[attempts - 1]).failure))
              && sleeps == attempts - 1
    ensures 0 < attempts && Poll(script[attempts - 1]).Fetched? ==>
              var e := Poll(script[attempts - 1]);
              if e.late.Some? && attempts == limit then
                r == UpdateFailed(Raised(e.late.value)) && sleeps == attempts - 1
              else
                r == Refreshed(Merge(data, e.battery, e.holiday, e.temperatures))
                && sleeps == (if e.late.Some? then attempts else attempts - 1)
  {
    failedAfter, attempts, sleeps := failed, 0, 0;
    var retry := 0;
    var temperatures: Option<Dict> := None;
    var battery: Option<int> := None;
    var holiday: Option<Holiday> := None;
    while retry < limit && temperatures.None? && battery.None? && holiday.None?
      invariant attempts <= |script| && failedAfter == failed
      invariant temperatures.None? ==>
                  && battery.None? && holiday.None?
                  && retry == attempts == sleeps && (retry == 0 || retry < limit)
                  && forall i :: 0 <= i < attempts ==> Poll(script[i]).Retry?
      invariant temperatures.Some? ==>
                  && 0 < attempts <= limit
                  && (forall i :: 0 <= i < attempts - 1 ==> Poll(script[i]).Retry?)
                  && var e := Poll(script[attempts - 1]);
                     && e.Fetched? && temperatures.value == e.temperatures
                     && battery == e.battery && holiday == e.holiday
                     && (e.late.Some? ==> attempts < limit && sleeps == attempts)
                     && (e.late.None? ==> sleeps == attempts - 1)
      decreases limit - retry, if temperatures.None? then 1 else 0
    {
      var end := Poll(script[attempts]);
      attempts := attempts + 1;
      match end
      case Abort(p) =>
        return UpdateFailed(p), failedAfter, attempts, sleeps;
      case Retry(f) =>
        retry := retry + 1;
        if retry >= limit {
          failedAfter := failed + 1;
          return UpdateFailed(Raised(f)), failedAfter, attempts, sleeps;
        }
        sleeps := sleeps + 1;
      case Fetched(t, b, h, late) =>
        temperatures, battery, holiday := Some(t), b, h;
        if late.Some? {
          retry := retry + 1;
          if retry >= limit {
            failedAfter := failed + 1;
            return UpdateFailed(Raised(late.value)), failedAfter, attempts, sleeps;
          }
          sleeps := sleeps + 1;
        }
    }
    if temperatures.None? {
      return Crashed, failedAfter, attempts, sleeps;
    }
    r := Refreshed(Merge(data, battery, holiday, temperatures.value));
  }

  // ---------------------------------------------------------------- availability

  /** `CometBlueBluetoothEntity.available`. */
  function Available(failed: nat, limit: int, present: bool): (b: bool)
    ensures b <==> failed < limit && present
    ensures limit <= 0 ==> !b
  {
    failed < limit && present
  }

  /** Successive values of `failed_update_count`: each refresh adds at most one and none resets it. */
  predicate CounterTrace(trace: seq<nat>) {
    forall i :: 0 <= i < |trace| - 1 ==> trace[i] <= trace[i + 1] <= trace[i] + 1
  }

  /** Once the counter has reached the retry count the device stays unavailable for good. */
  lemma {:induction false} UnavailabilityIsPermanent(limit: int, trace: seq<nat>, i: nat, j: nat, present: bool)
    requires CounterTrace(trace) && i <= j < |trace|
    requires trace[i] >= limit
    ensures !Available(trace[j], limit, present)
    decreases j - i
  {
    if i < j {
      assert trace[i] <= trace[i + 1];
      UnavailabilityIsPermanent(limit, trace, i + 1, j, present);
    }
  }

  /** Successive scheduled refreshes, each on the data the previous one left: `counters[k]` is
      `failed_update_count` before refresh k. The counter never decreases and grows by at most
      one per refresh, so UnavailabilityIsPermanent applies to it. */
  method RefreshSeries(limit: int, failed: nat, data: Snapshot, scripts: seq<seq<PollAttempt>>)
    returns (counters: seq<nat>, last: Snapshot)
    requires forall k :: 0 <= k < |scripts| ==> limit <= |scripts[k]|
    ensures |counters| == |scripts| + 1 && counters[0] == failed
    ensures CounterTrace(counters)
  {
    counters, last := [failed], data;
    var k := 0;
    while k < |scripts|
      invariant 0 <= k <= |scripts| && |counters| == k + 1 && counters[0] == failed
      invariant CounterTrace(counters)
    {
      var r, failedAfter, attempts, sleeps := Refresh(limit, counters[k], last, scripts[k]);
      if r.Refreshed? {
        last := r.data;
      }
      counters := counters + [failedAfter];
      k := k + 1;
    }
  }
}

=== FILE: device.dfy ===
/** The device driver as seen by the integrations: scripted replies, error classes and the write calls. */
module Device {
  import opened Values
  import opened Clock

  /** The exceptions a driver call can raise.
      InvalidByte is `InvalidByteValueError`, a `ValueError` that the current integration retries;
      BadValue is any other `ValueError`; OtherError is everything else. */
  datatype Failure = InvalidByte | Timeout | Bleak | BadValue | OtherError

  /** The errors the current coordinator retries: `(InvalidByteValueError, TimeoutError, BleakError)`. */
  predicate Transient(f: Failure) {
    f.InvalidByte? || f.Timeout? || f.Bleak?
  }

  /** `ValueError` and its subclasses. */
  predicate IsValueError(f: Failure) {
    f.InvalidByte? || f.BadValue?
  }

  /** What one scripted driver call does. */
  datatype Reply<+T> = Return(value: T) | Raise(failure: Failure)

  /** Why a device session produced no answer: the session was not connected
      (`ConfigEntryNotReady`), or a driver call raised. */
  datatype Problem = NotConnected | Raised(failure: Failure)

  /** The holiday dict read from or written to slot 1; `{}` is `NoHoliday`. */
  datatype Holiday = Holiday(start: Option<DateTime>, end: Option<DateTime>, temperature: Option<int>)

  const NoHoliday := Holiday(None, None, None)

  datatype Day = Monday | Tuesday | Wednesday | Thursday | Friday | Saturday | Sunday

  datatype HolidayValues = HolidayValues(start: DateTime, end: DateTime, temperature: int)

  /** The driver write operations the integrations call. */
  datatype Call =
    | SetTemperature(values: Dict)
    | SetDatetime(date: DateTime)
    | SetWeekdays(days: map<Day, map<string, string>>)
    | SetHoliday(number: int, holiday: HolidayValues)

  /** A write handed to `send_command`; `refreshAfter` is whether the caller then requests a refresh. */
  datatype Write = Write(call: Call, refreshAfter: bool)

  /** One command attempt: entering the session, then the driver call (read only when connected). */
  datatype CommandAttempt<+R> = CommandAttempt(session: Reply<bool>, call: Reply<R>)

  /** What one command attempt produced. */
  function Attempt<R>(a: CommandAttempt<R>): Result<R, Problem> {
    match a.session
    case Raise(f) => Err(Raised(f))
    case Return(connected) =>
      if !connected then Err(NotConnected)
      else
        match a.call
        case Return(v) => Ok(v)
        case Raise(f) => Err(Raised(f))
  }

  /** The Home Assistant exceptions `send_command` can end with. */
  datatype HaError =
    | SendFailed(cause: Failure)        // HomeAssistantError "Error sending command"
    | InvalidPayload(cause: Failure)    // HomeAssistantError "Invalid payload"
    | PayloadRejected(cause: Failure)   // ServiceValidationError
    | NotReady                          // ConfigEntryNotReady, propagated
    | Unhandled(cause: Failure)         // any other exception, propagated

  datatype CommandResult<+R> = Done(value: Option<R>) | CommandError(error: HaError)
}

=== FILE: legacy_climate.dfy ===
/** The legacy integration's climate entity: a fixed AUTO mode and presets read from the targets.
    Temperatures are in half-degrees. */
module LegacyClimate {
  import opened Values
  import opened Device
  import opened ClimateTerms
  import opened LegacyCoordinator
  import opened Clock
  import Climate

  /** 8 °C and 28 °C. */
  const MinTemp := 16
  const MaxTemp := 56

  /** The only hvac mode the legacy entity offers. */
  const HvacModes: seq<HvacMode> := [Auto]

  /** `_attr_preset_modes`. */
  const PresetModes: seq<Preset> := [NoPreset, Eco, Away, Comfort]

  /** A key the entity reads: present, holding a number or `None`. */
  predicate NumericAt(d: LegacyData, k: string) {
    k in d && (d[k].None? || d[k].value.Num?)
  }

  function Reading(d: LegacyData, k: string): Option<int>
    requires NumericAt(d, k)
  {
    if d[k].None? then None else Some(d[k].value.n)
  }

  datatype Readings = Readings(manual: Option<int>, low: Option<int>, high: Option<int>)

  predicate Readable(d: LegacyData) {
    NumericAt(d, "manualTemp") && NumericAt(d, "targetTempLow") && NumericAt(d, "targetTempHigh")
  }

  function ReadingsOf(d: LegacyData): Readings
    requires Readable(d)
  {
    Readings(Reading(d, "manualTemp"), Reading(d, "targetTempLow"), Reading(d, "targetTempHigh"))
  }

  /** The hvac mode is fixed to AUTO, the one mode offered. */
  function Mode(r: Readings): (m: HvacMode)
    ensures m in HvacModes && m == Auto
  {
    Auto
  }

  /** Legacy `preset_mode`: eco is tested before comfort, and away is never reported. */
  function PresetOf(r: Readings): (p: Preset)
    ensures p != Away
    ensures p == Eco <==> r.manual == r.low
    ensures p == Comfort <==> r.manual != r.low && r.manual == r.high
    ensures p == NoPreset <==> r.manual != r.low && r.manual != r.high
  {
    if r.manual == r.low then Eco
    else if r.manual == r.high then Comfort
    else NoPreset
  }

  /** Legacy `async_set_temperature`: no holiday check. */
  function SetTemperature(r: Readings, req: TemperatureRequest): (w: Write)
    ensures w == TemperatureWrite(r.manual, req)
  {
    TemperatureWrite(r.manual, req)
  }

  /** Legacy `async_set_preset_mode`. */
  function SetPresetMode(r: Readings, p: Preset): (w: Result<Write, Rejection>)
    ensures p !in PresetModes ==> w == Err(UnsupportedPreset(p))
    ensures p == NoPreset || p == Away ==> w == Err(DisplayOnly(p))
    ensures p == Eco ==> w == Ok(SetTemperature(r, Target(r.low)))
    ensures p == Comfort ==> w == Ok(SetTemperature(r, Target(r.high)))
  {
    if p !in PresetModes then Err(UnsupportedPreset(p))
    else if p == NoPreset || p == Away then Err(DisplayOnly(p))
    else if p == Eco then Ok(SetTemperature(r, Target(r.low)))
    else Ok(SetTemperature(r, Target(r.high)))
  }

  /** The two integrations report the same preset except when the manual temperature equals
      both targets: the current one says comfort there, the legacy one eco. */
  lemma PresetVariantsDiffer(r: Readings, holiday: Holiday)
    requires !Climate.OnHoliday(Climate.Readings(r.manual, r.low, r.high, holiday))
    ensures var current := Climate.PresetOf(Climate.Readings(r.manual, r.low, r.high, holiday));
            current != PresetOf(r) <==> r.manual == r.low && r.manual == r.high
    ensures r.manual == r.low && r.manual == r.high ==>
              Climate.PresetOf(Climate.Readings(r.manual, r.low, r.high, holiday)) == Comfort
              && PresetOf(r) == Eco
  {
  }

  /** Exactly eco and comfort can be set, whatever the readings. */
  lemma SettablePresets(r: Readings, p: Preset)
    ensures SetPresetMode(r, p).Ok? <==> p == Eco || p == Comfort
  {
  }

  /** During a holiday the current integration refuses eco, comfort and temperature writes,
      while the legacy one sends the same write it sends at any other time. */
  lemma HolidayLockOnlyInCurrent(r: Readings, holiday: Holiday, p: Preset, req: TemperatureRequest)
    requires Climate.OnHoliday(Climate.Readings(r.manual, r.low, r.high, holiday))
    requires p == Eco || p == Comfort
    ensures Climate.SetPresetMode(Climate.Readings(r.manual, r.low, r.high, holiday), p) == Err(AwayLocked)
    ensures SetPresetMode(r, p).Ok?
    ensures Climate.SetTemperature(Climate.Readings(r.manual, r.low, r.high, holiday), req) == Err(AwayLocked)
  {
  }

  /** Outside a holiday the two integrations send the same temperature write. */
  lemma SameTemperatureWrite(r: Readings, holiday: Holiday, req: TemperatureRequest)
    ensures var current := Climate.Readings(r.manual, r.low, r.high, holiday);
            Climate.SetTemperature(current, req) == Ok(SetTemperature(r, req)) <==> !Climate.OnHoliday(current)
  {
  }

  /** The legacy entity shows AUTO where the current one shows OFF or HEAT. */
  lemma ModesDiffer(r: Readings, holiday: Holiday)
    ensures Climate.Mode(Climate.Readings(r.manual, r.low, r.high, holiday)) != Mode(r) <==>
              r.manual == Some(Climate.MinTemp) || r.manual == Some(Climate.MaxTemp)
  {
  }

  /** A successful legacy refresh whose temperature group holds the three keys the entity
      indexes leaves readable data, with the values just read. */
  lemma RefreshedReadings(session: Reply<bool>, battery: Reply<Option<int>>, clock: Reply<Option<DateTime>>,
                          temps: Reply<Dict>)
    requires Refresh(session, battery, clock, temps).Ok?
    requires "manualTemp" in temps.value && "targetTempLow" in temps.value && "targetTempHigh" in temps.value
    ensures var d := Refresh(session, battery, clock, temps).value;
            Readable(d)
            && ReadingsOf(d) == Readings(temps.value["manualTemp"], temps.value["targetTempLow"], temps.value["targetTempHigh"])
  {
  }
}

=== FILE: legacy_coordinator.dfy ===
/** The legacy integration's coordinator: a single command attempt and an all-or-nothing refresh. */
module LegacyCoordinator {
  import opened Values
  import opened Clock
  import opened Device
  import Coordinator

  /** A value of the legacy data dict: a number or the device clock. */
  datatype Val = Num(n: int) | Stamp(t: DateTime)

  type LegacyData = map<string, Option<Val>>

  function Lift(v: Option<int>): Option<Val> {
    match v
    case None => None
    case Some(n) => Some(Num(n))
  }

  /** The legacy mapping of a command failure: `ValueError` becomes "Invalid payload",
      `BleakError` "Error sending command", anything else propagates unchanged. */
  function LegacyFailure(p: Problem): HaError {
    match p
    case NotConnected => NotReady
    case Raised(f) =>
      if IsValueError(f) then InvalidPayload(f)
      else if f.Bleak? then SendFailed(f)
      else Unhandled(f)
  }

  /** Legacy `send_command`: exactly one attempt, never retried. */
  function SendCommand<R>(a: CommandAttempt<R>): (r: CommandResult<R>)
    ensures Attempt(a).Ok? <==> r.Done?
    ensures Attempt(a).Ok? ==> r == Done(Some(Attempt(a).value))
    ensures r == CommandError(NotReady) <==> Attempt(a) == Err(NotConnected)
    ensures r.CommandError? && r.error.InvalidPayload? <==>
              Attempt(a).Err? && Attempt(a).error.Raised? && IsValueError(Attempt(a).error.failure)
    ensures r.CommandError? && r.error.SendFailed? <==> Attempt(a) == Err(Raised(Bleak))
  {
    match Attempt(a)
    case Ok(v) => Done(Some(v))
    case Err(p) => CommandError(LegacyFailure(p))
  }

  /** One attempt through each integration's `send_command`: the two agree on success, on a
      session that is not connected, on `BleakError` and on exceptions neither catches, and
      differ exactly on `TimeoutError` and the two kinds of `ValueError`. */
  method CompareWithCurrent<R>(a: CommandAttempt<R>) returns (current: CommandResult<R>, legacy: CommandResult<R>)
    ensures legacy == SendCommand(a)
    ensures current != legacy <==>
              Attempt(a).Err? && Attempt(a).error.Raised? && Attempt(a).error.failure in {Timeout, InvalidByte, BadValue}
    ensures Attempt(a) == Err(Raised(Timeout)) ==>
              current == CommandError(SendFailed(Timeout)) && legacy == CommandError(Unhandled(Timeout))
    ensures Attempt(a) == Err(Raised(InvalidByte)) ==>
              current == CommandError(SendFailed(InvalidByte)) && legacy == CommandError(InvalidPayload(InvalidByte))
    ensures Attempt(a) == Err(Raised(BadValue)) ==>
              current == CommandError(PayloadRejected(BadValue)) && legacy == CommandError(InvalidPayload(BadValue))
  {
    var attempts, sleeps;
    current, attempts, sleeps := Coordinator.SendCommand(1, [a]);
    legacy := SendCommand(a);
  }

  /** Legacy `_async_update_data`: session, battery, clock and temperature group are read in
      that order; any failure, including a session that is not connected, fails the whole update. */
  function Refresh(session: Reply<bool>, battery: Reply<Option<int>>, clock: Reply<Option<DateTime>>,
                   temps: Reply<Dict>): (r: Result<LegacyData, Problem>)
    ensures r.Ok? <==> session == Return(true) && battery.Return? && clock.Return? && temps.Return?
    ensures r.Ok? ==> r.value.Keys == {"battery", "datetime"} + temps.value.Keys
    ensures r.Ok? ==> forall k :: k in temps.value ==> r.value[k] == Lift(temps.value[k])
    ensures r.Ok? && "battery" !in temps.value ==> r.value["battery"] == Lift(battery.value)
    ensures r.Ok? && "datetime" !in temps.value ==>
              r.value["datetime"] == (if clock.value.Some? then Some(Stamp(clock.value.value)) else None)
  {
    match session
    case Raise(f) => Err(Raised(f))
    case Return(connected) =>
      if !connected then Err(NotConnected)
      else
        match (battery, clock, temps)
        case (Raise(f), _, _) => Err(Raised(f))
        case (_, Raise(f), _) => Err(Raised(f))
        case (_, _, Raise(f)) => Err(Raised(f))
        case (Return(b), Return(c), Return(t)) =>
          var head: LegacyData := map[
            "battery" := Lift(b),
            "datetime" := if c.Some? then Some(Stamp(c.value)) else None];
          Ok(head + map k | k in t :: Lift(t[k]))
  }

  /** Legacy `available`: the last update succeeded, the device is present and the entity has
      not been marked unavailable. */
  function Available(lastUpdateSuccess: bool, present: bool, attrAvailable: bool): (b: bool)
    ensures b <==> lastUpdateSuccess && present && attrAvailable
  {
    lastUpdateSuccess && present && attrAvailable
  }

  /** Unlike the current integration, availability follows the latest refresh: any failed read
      makes the entity unavailable, and one successful refresh makes a present entity available again. */
  lemma AvailabilityFollowsLastRefresh(session: Reply<bool>, battery: Reply<Option<int>>,
                                       clock: Reply<Option<DateTime>>, temps: Reply<Dict>)
    ensures Available(Refresh(session, battery, clock, temps).Ok?, true, true) <==>
              session == Return(true) && battery.Return? && clock.Return? && temps.Return?
  {
  }
}

=== FILE: number.dfy ===
/** The current integration's number entities: one per attribute of the temperature group that
    can be set on its own, each written together with the preserved manual temperature. */
module Number {
  import opened Values
  import opened Device
  import Coordinator
  import Climate

  datatype Unit = HalfDegrees | Minutes

  /** A number description: entity key, attribute read and written, declared bounds and step
      (in the attribute's unit). */
  datatype Description = Description(key: string, cometblueKey: string, min: int, max: int, step: int, unit: Unit)

  /** `DESCRIPTIONS`. */
  function Descriptions(): (ds: seq<Description>)
    ensures |ds| == 4
    ensures forall d :: d in ds ==> d.cometblueKey in Coordinator.AllTemperatures
    ensures forall d :: d in ds ==> d.cometblueKey != "manualTemp"
    ensures forall d :: d in ds ==> d.min < d.max && 0 < d.step && (d.max - d.min) % d.step == 0
    ensures forall d :: d in ds && d.unit == HalfDegrees && d.cometblueKey != "tempOffset" ==>
              d.min == Climate.MinTemp && d.max == Climate.MaxTemp
    ensures forall i, j :: 0 <= i < j < |ds| ==> ds[i].cometblueKey != ds[j].cometblueKey
    ensures ds[0].cometblueKey == "tempOffset" && ds[0].min == -10 && ds[0].max == 10
    ensures ds[1].cometblueKey == "targetTempLow" && ds[2].cometblueKey == "targetTempHigh"
    ensures forall i :: 0 <= i < 3 ==> ds[i].unit == HalfDegrees
    ensures forall d :: d in ds && d.unit == HalfDegrees ==> d.step == 1
    ensures ds[3].cometblueKey == "windowOpenMinutes" && ds[3].unit == Minutes
            && ds[3].min == 5 && ds[3].max == 15 && ds[3].step == 5
  {
    [ Description("offset", "tempOffset", -10, 10, 1, HalfDegrees),
      Description("target_temp_low", "targetTempLow", Climate.MinTemp, Climate.MaxTemp, 1, HalfDegrees),
      Description("target_temp_high", "targetTempHigh", Climate.MinTemp, Climate.MaxTemp, 1, HalfDegrees),
      Description("window_open_minutes", "windowOpenMinutes", 5, 15, 5, Minutes) ]
  }

  /** The values the declared bounds and step admit. */
  predicate InRange(d: Description, value: int) {
    d.min <= value <= d.max && 0 < d.step && (value - d.min) % d.step == 0
  }

  /** `native_value`: `data.get(cometblue_key)`. */
  function NativeValue(s: Coordinator.Snapshot, d: Description): (v: Option<int>)
    ensures d.cometblueKey !in s.temps ==> v.None?
    ensures Coordinator.Merged(s) && d in Descriptions() ==> v == s.temps[d.cometblueKey]
  {
    Get(s.temps, d.cometblueKey)
  }

  /** `async_set_native_value`: exactly the manual temperature, copied from the data, and the
      new value of this attribute; a refresh follows. */
  function SetNativeValue(s: Coordinator.Snapshot, d: Description, value: int): (w: Write)
    requires d in Descriptions()
    requires "manualTemp" in s.temps
    ensures w.call.SetTemperature? && w.refreshAfter
    ensures w.call.values.Keys == {"manualTemp", d.cometblueKey}
    ensures w.call.values["manualTemp"] == s.temps["manualTemp"]
    ensures w.call.values[d.cometblueKey] == Some(value)
  {
    Write(SetTemperature(map["manualTemp" := s.temps["manualTemp"], d.cometblueKey := Some(value)]), true)
  }

  /** Each number reads an attribute every refresh writes: after a merge its value is the one
      just read when truthy, else the one kept from before. */
  lemma NumbersReadMergedValues(previous: Coordinator.Snapshot, battery: Option<int>, holiday: Option<Holiday>,
                                fetched: Dict, d: Description)
    requires d in Descriptions()
    ensures var s := Coordinator.Merge(previous, battery, holiday, fetched);
            d.cometblueKey in s.temps
            && NativeValue(s, d) == (if Truthy(Get(fetched, d.cometblueKey)) then Get(fetched, d.cometblueKey)
                                     else Get(previous.temps, d.cometblueKey))
  {
  }

  /** The window duration admits exactly 5, 10 and 15 minutes. */
  lemma WindowMinutesValues(value: int)
    ensures InRange(Descriptions()[3], value) <==> value == 5 || value == 10 || value == 15
  {
  }
}

=== FILE: services.dfy ===
/** The current integration's setup helpers and services: option migration, and the payloads of
    `set_datetime`, `set_schedule` and `set_holiday`. */
module Services {
  import opened Values
  import opened Clock
  import opened Device
  import Coordinator
  import Validation

  // ---------------------------------------------------------------- option migration

  /** A value stored in a config entry's data. */
  datatype ConfigValue = IntValue(n: int) | TextValue(s: string) | NoneValue

  type EntryData = map<string, ConfigValue>

  const TimeoutKey := "timeout"
  const RetryCountKey := "retry_count"

  /** `_async_migrate_options_if_missing`: `None` when the entry is left alone, else the data
      the entry is updated with. */
  function MigrateOptions(data: EntryData): (update: Option<EntryData>)
    ensures update.None? <==> TimeoutKey in data && RetryCountKey in data
    ensures update.Some? ==> update.value.Keys == data.Keys + {TimeoutKey, RetryCountKey}
    ensures update.Some? && TimeoutKey in data ==> update.value[TimeoutKey] == data[TimeoutKey]
    ensures update.Some? && TimeoutKey !in data ==> update.value[TimeoutKey] == IntValue(Coordinator.DefaultTimeoutSeconds)
    ensures update.Some? && RetryCountKey in data ==> update.value[RetryCountKey] == data[RetryCountKey]
    ensures update.Some? && RetryCountKey !in data ==> update.value[RetryCountKey] == IntValue(Coordinator.DefaultRetryCount)
    ensures update.Some? ==> forall k :: k in data && k != TimeoutKey && k != RetryCountKey ==> update.value[k] == data[k]
  {
    if TimeoutKey !in data || RetryCountKey !in data then
      Some(data[TimeoutKey := if TimeoutKey in data then data[TimeoutKey] else IntValue(Coordinator.DefaultTimeoutSeconds)]
               [RetryCountKey := if RetryCountKey in data then data[RetryCountKey] else IntValue(Coordinator.DefaultRetryCount)])
    else None
  }

  /** The entry data after migration. */
  function Migrated(data: EntryData): EntryData {
    MigrateOptions(data).GetOr(data)
  }

  /** Migrating a second time changes nothing. */
  lemma MigrationIdempotent(data: EntryData)
    ensures MigrateOptions(Migrated(data)) == None
    ensures Migrated(Migrated(data)) == Migrated(data)
  {
  }

  // ---------------------------------------------------------------- set_datetime

  /** A write addressed to the coordinator of one entity. */
  datatype Dispatch = Dispatch(entityId: string, write: Write)

  /** `set_datetime`: the given datetime, or now, to every listed entity, in order. */
  function SetDatetimeService(entities: seq<string>, requested: Option<DateTime>, now: DateTime): (ds: seq<Dispatch>)
    ensures |ds| == |entities|
    ensures forall i :: 0 <= i < |ds| ==>
              ds[i].entityId == entities[i] && !ds[i].write.refreshAfter && ds[i].write.call.SetDatetime?
    ensures requested.Some? ==> forall i :: 0 <= i < |ds| ==> ds[i].write.call.date == requested.value
    ensures requested.None? ==> forall i :: 0 <= i < |ds| ==> ds[i].write.call.date == now
  {
    var target := requested.GetOr(now);
    seq(|entities|, i requires 0 <= i < |entities| => Dispatch(entities[i], Write(SetDatetime(target), false)))
  }

  // ---------------------------------------------------------------- the service loop

  /** How one entity's turn in a service loop ends: no coordinator is found for the entity
      (the lookup raises `ValueError`), or `send_command` returns (`None`) or raises. */
  datatype Turn = UnknownEntity | Answered(error: Option<HaError>)

  /** Why a service call ended before its last entity. */
  datatype Stop = NoCoordinator(entityId: string) | CommandRaised(error: HaError)

  /** What a service loop did: the commands it issued, in order, and the error that ended it. */
  datatype Run = Run(issued: seq<Dispatch>, stop: Option<Stop>)

  predicate Quiet(t: Turn) {
    t == Answered(None)
  }

  /** The loop every service runs: entity by entity, look up the coordinator, then await the
      command. The first raised error ends the call and later entities get nothing.
      `turns[i]` is how entity i's turn ends. */
  function RunService(ds: seq<Dispatch>, turns: seq<Turn>): (run: Run)
    requires |turns| == |ds|
    ensures |run.issued| <= |ds| && run.issued == ds[..|run.issued|]
    ensures run.stop.None? <==> forall i :: 0 <= i < |turns| ==> Quiet(turns[i])
    ensures run.stop.None? ==> run.issued == ds
    ensures run.stop.Some? && run.stop.value.NoCoordinator? ==>
              && |run.issued| < |ds| && turns[|run.issued|] == UnknownEntity
              && run.stop.value.entityId == ds[|run.issued|].entityId
              && forall i :: 0 <= i < |run.issued| ==> Quiet(turns[i])
    ensures run.stop.Some? && run.stop.value.CommandRaised? ==>
              && 0 < |run.issued| && turns[|run.issued| - 1] == Answered(Some(run.stop.value.error))
              && forall i :: 0 <= i < |run.issued| - 1 ==> Quiet(turns[i])
  {
    if |ds| == 0 then Run([], None)
    else
      match turns[0]
      case UnknownEntity => Run([], Some(NoCoordinator(ds[0].entityId)))
      case Answered(Some(e)) => Run([ds[0]], Some(CommandRaised(e)))
      case Answered(None) =>
        var rest := RunService(ds[1..], turns[1..]);
        assert forall i :: 1 <= i < |turns| ==> turns[i] == turns[1..][i - 1];
        Run([ds[0]] + rest.issued, rest.stop)
  }

  /** An entity whose turn raises is the last one reached: no entity after it gets a command. */
  lemma {:induction false} RaisedTurnEndsService(ds: seq<Dispatch>, turns: seq<Turn>, k: nat)
    requires |turns| == |ds| && k < |turns| && !Quiet(turns[k])
    ensures RunService(ds, turns).stop.Some?
    ensures |RunService(ds, turns).issued| <= k + 1
    ensures turns[k] == UnknownEntity ==> |RunService(ds, turns).issued| <= k
    decreases k
  {
    if k > 0 && Quiet(turns[0]) {
      assert turns[1..][k - 1] == turns[k];
      RaisedTurnEndsService(ds[1..], turns[1..], k - 1);
    }
  }

  // ---------------------------------------------------------------- set_schedule

  /** The `values` of `set_weekdays_async`: the days whose validated schedule is not `None`,
      each time rendered as `HH:MM`. */
  function WeekdayValues(days: map<Day, Option<map<string, TimeOfDay>>>): (values: map<Day, map<string, string>>)
    ensures values.Keys == set d | d in days && days[d].Some?
    ensures forall d :: d in values ==> values[d].Keys == days[d].value.Keys
    ensures forall d, k :: d in values && k in values[d] ==> |values[d][k]| == 5 && values[d][k][2] == ':'
  {
    map d | d in days && days[d].Some? :: map k | k in days[d].value :: RenderHHMM(days[d].value[k])
  }

  /** `set_schedule`: the same weekday values to every listed entity. */
  function SetScheduleService(entities: seq<string>, days: map<Day, Option<map<string, TimeOfDay>>>): (ds: seq<Dispatch>)
    ensures |ds| == |entities|
    ensures forall i :: 0 <= i < |ds| ==>
              ds[i] == Dispatch(entities[i], Write(SetWeekdays(WeekdayValues(days)), false))
  {
    seq(|entities|, i requires 0 <= i < |entities| => Dispatch(entities[i], Write(SetWeekdays(WeekdayValues(days)), false)))
  }

  /** Each time sent reads back as the submitted time truncated to the minute. */
  lemma WeekdayValuesReadBack(days: map<Day, Option<map<string, TimeOfDay>>>, d: Day, k: string)
    requires d in days && days[d].Some? && k in days[d].value
    ensures ParseHHMM(WeekdayValues(days)[d][k]) == Some(MinuteOf(days[d].value[k]))
  {
    RenderThenParse(days[d].value[k]);
  }

  /** A validated day stays ordered once rendered: each interval's start is not after its end
      and no interval starts before an earlier one ends. Dropping the seconds can make an
      interval's start and end equal. */
  lemma RenderedDayStaysOrdered(t: map<string, TimeOfDay>, i: int, j: int)
    requires Validation.WellOrdered(t)
    requires 1 <= i <= 4 && 1 <= j <= 4 && Validation.Present(t, i) && Validation.Present(t, j)
    ensures MinuteOf(t[Validation.StartKey(i)]) <= MinuteOf(t[Validation.EndKey(i)])
    ensures i < j ==> MinuteOf(t[Validation.EndKey(i)]) <= MinuteOf(t[Validation.StartKey(j)])
  {
    MinuteOfMonotone(t[Validation.StartKey(i)], t[Validation.EndKey(i)]);
    if i < j {
      MinuteOfMonotone(t[Validation.EndKey(i)], t[Validation.StartKey(j)]);
    }
  }

  /** Dropping the seconds can close an interval: 08:00:10-08:00:50 is well ordered, and both
      ends are sent as "08:00". */
  lemma RenderingCanCloseInterval()
    ensures var t := map["start1" := 28810, "end1" := 28850];
            Validation.WellOrdered(t) && RenderHHMM(t["start1"]) == RenderHHMM(t["end1"])
  {
    Validation.KeyNames();
    var t := map["start1" := 28810, "end1" := 28850];
    Validation.CheckPairsCorrect(t, 1, None);
    assert Validation.CheckPairs(t, 2, Some(28850)) == Ok(());
  }

  // ---------------------------------------------------------------- set_holiday

  /** The validated `set_holiday` call; the temperature is in half-degrees. */
  datatype HolidayRequest = HolidayRequest(entities: seq<string>, start: DateTime, end: DateTime, temperature: int)

  datatype ServiceError = StartInPast

  /** `set_holiday`: refused before anything is sent when the start, truncated to the hour, is
      earlier than now; otherwise slot 1 of every listed entity gets start, end and temperature. */
  function SetHolidayService(req: HolidayRequest, now: DateTime): (r: Result<seq<Dispatch>, ServiceError>)
    ensures r.Err? <==> Before(TruncateToHour(req.start), now)
    ensures r.Ok? ==> |r.value| == |req.entities|
    ensures r.Ok? ==> forall i :: 0 <= i < |r.value| ==>
              r.value[i] == Dispatch(req.entities[i],
                Write(SetHoliday(Coordinator.HolidaySlot, HolidayValues(req.start, req.end, req.temperature)), false))
  {
    if Before(TruncateToHour(req.start), now) then Err(StartInPast)
    else
      var values := HolidayValues(req.start, req.end, req.temperature);
      Ok(seq(|req.entities|, i requires 0 <= i < |req.entities| =>
        Dispatch(req.entities[i], Write(SetHoliday(Coordinator.HolidaySlot, values), false))))
  }

  /** A start earlier than now is refused. */
  lemma PastStartRefused(req: HolidayRequest, now: DateTime)
    requires Valid(req.start) && Before(req.start, now)
    ensures SetHolidayService(req, now).Err?
  {
  }

  /** A start in a later hour than now is accepted. */
  lemma LaterHourAccepted(req: HolidayRequest, now: DateTime)
    requires Valid(now) && Before(TruncateToHour(now), TruncateToHour(req.start))
    ensures SetHolidayService(req, now).Ok?
  {
  }

  /** A start within the current hour is accepted only when now is exactly on the hour. */
  lemma CurrentHourAcceptedOnlyOnTheHour(req: HolidayRequest, now: DateTime)
    requires Valid(now) && TruncateToHour(req.start) == TruncateToHour(now)
    ensures SetHolidayService(req, now).Ok? <==> now == TruncateToHour(now)
  {
  }
}

=== FILE: terms.dfy ===
/** Home Assistant's climate vocabulary and the temperature write both integrations send. */
module ClimateTerms {
  import opened Values
  import opened Device

  datatype HvacMode = Off | Heat | Auto | Cool | HeatCool | Dry | FanOnly

  datatype HvacAction = Off | Heating | Idle

  /** A preset name; `Named` is any other string a caller may pass. */
  datatype Preset = NoPreset | Eco | Away | Comfort | Named(name: string)

  /** Why a climate write is refused (a `ValueError`). */
  datatype Rejection =
    | AwayLocked
    | UnsupportedPreset(preset: Preset)
    | DisplayOnly(preset: Preset)
    | UnknownHvacMode(mode: HvacMode)

  /** The keyword arguments of `async_set_temperature`. */
  datatype TemperatureRequest = TemperatureRequest(temperature: Option<int>, low: Option<int>, high: Option<int>)

  function Target(t: Option<int>): TemperatureRequest {
    TemperatureRequest(t, None, None)
  }

  /** The `set_temperature_async` write for a request, given the current manual temperature.
      The device switches off when `manualTemp` is missing, so it is always sent. */
  function TemperatureWrite(manual: Option<int>, req: TemperatureRequest): (w: Write)
    ensures w.call.SetTemperature? && w.refreshAfter
    ensures w.call.values.Keys == {"manualTemp", "targetTempLow", "targetTempHigh"}
    ensures Truthy(req.temperature) ==> w.call.values["manualTemp"] == req.temperature
    ensures !Truthy(req.temperature) ==> w.call.values["manualTemp"] == manual
    ensures w.call.values["targetTempLow"] == req.low && w.call.values["targetTempHigh"] == req.high
  {
    Write(SetTemperature(map[
      "manualTemp" := Or(req.temperature, manual),
      "targetTempLow" := req.low,
      "targetTempHigh" := req.high]), true)
  }

  /** A temperature write keeps the thermostat on: when the current manual temperature is set,
      so is the one sent, whatever the request. */
  lemma TemperatureWriteKeepsManual(manual: Option<int>, req: TemperatureRequest)
    requires Truthy(manual)
    ensures Truthy(TemperatureWrite(manual, req).call.values["manualTemp"])
  {
  }
}

=== FILE: validation.dfy ===
/** Service-input validation: half-degree values, the holiday temperature and a day's schedule. */
module Validation {
  import opened Values
  import opened Clock
  import LegacyClimate

  /** A service field after coercion: a number, or something that is not one. */
  datatype Input = Num(x: real) | NotNum

  datatype Invalid = NotHalfPrecision(value: real) | NotAFloat | OutOfRange(value: real)

  /** Python's float `%` for a positive divisor: the remainder has the divisor's sign. */
  function PyMod(x: real, m: real): real
    requires m > 0.0
  {
    x - m * ((x / m).Floor as real)
  }

  /** A multiple of one half. */
  predicate IsHalfStep(x: real) {
    (2.0 * x).Floor as real == 2.0 * x
  }

  function HalfDegrees(h: int): real {
    h as real / 2.0
  }

  function ToHalfDegrees(x: real): int {
    (2.0 * x).Floor
  }

  /** `validate_half_precision`: the value itself when `value % 0.5 == 0`, `Invalid` otherwise
      and for anything `%` cannot take. */
  function ValidateHalfPrecision(v: Input): (r: Result<real, Invalid>)
    ensures r.Ok? <==> v.Num? && IsHalfStep(v.x)
    ensures r.Ok? ==> r.value == v.x
  {
    match v
    case NotNum => Err(NotAFloat)
    case Num(x) =>
      assert x / 0.5 == 2.0 * x;
      if PyMod(x, 0.5) != 0.0 then Err(NotHalfPrecision(x)) else Ok(x)
  }

  /** Every half-degree value passes, unchanged. */
  lemma HalfDegreesAccepted(h: int)
    ensures ValidateHalfPrecision(Num(HalfDegrees(h))) == Ok(HalfDegrees(h))
    ensures ToHalfDegrees(HalfDegrees(h)) == h
  {
    assert 2.0 * HalfDegrees(h) == h as real;
  }

  /** Every value that passes is a half-degree value. */
  lemma AcceptedAreHalfDegrees(x: real)
    requires ValidateHalfPrecision(Num(x)).Ok?
    ensures HalfDegrees(ToHalfDegrees(x)) == x
  {
  }

  /** The holiday temperature field: a float in [8, 28] in half-degree steps, as half-degrees. */
  function HolidayTemperature(v: Input): (r: Result<int, Invalid>)
    ensures r.Ok? <==> v.Num? && 8.0 <= v.x <= 28.0 && IsHalfStep(v.x)
    ensures r.Ok? ==> LegacyClimate.MinTemp <= r.value <= LegacyClimate.MaxTemp && HalfDegrees(r.value) == v.x
  {
    match v
    case NotNum => Err(NotAFloat)
    case Num(x) =>
      if x < HalfDegrees(LegacyClimate.MinTemp) || x > HalfDegrees(LegacyClimate.MaxTemp) then Err(OutOfRange(x))
      else
        match ValidateHalfPrecision(v)
        case Err(e) => Err(e)
        case Ok(y) => Ok(ToHalfDegrees(y))
  }

  // ---------------------------------------------------------------- schedules

  function StartKey(i: int): string
    requires 1 <= i <= 4
  {
    "start" + [Digit(i)]
  }

  function EndKey(i: int): string
    requires 1 <= i <= 4
  {
    "end" + [Digit(i)]
  }

  /** `valid_cometblue_schedule_keys`: the four starts, then the four ends. */
  function ScheduleKeys(): (keys: seq<string>)
    ensures |keys| == 8
    ensures forall i :: 1 <= i <= 4 ==> keys[i - 1] == StartKey(i) && keys[i + 3] == EndKey(i)
  {
    [StartKey(1), StartKey(2), StartKey(3), StartKey(4)] + [EndKey(1), EndKey(2), EndKey(3), EndKey(4)]
  }

  lemma KeysDiffer(i: int, j: int)
    requires 1 <= i <= 4 && 1 <= j <= 4
    ensures StartKey(i) != EndKey(j)
    ensures i != j ==> StartKey(i) != StartKey(j) && EndKey(i) != EndKey(j)
  {
    assert StartKey(i)[0] != EndKey(j)[0];
    if i != j {
      assert StartKey(i)[5] != StartKey(j)[5];
      assert EndKey(i)[3] != EndKey(j)[3];
    }
  }

  /** No schedule key is listed twice. */
  lemma ScheduleKeysDistinct()
    ensures forall a, b :: 0 <= a < b < 8 ==> ScheduleKeys()[a] != ScheduleKeys()[b]
  {
    var keys := ScheduleKeys();
    forall a, b | 0 <= a < b < 8
      ensures keys[a] != keys[b]
    {
      if b < 4 {
        KeysDiffer(a + 1, b + 1);
      } else if a < 4 {
        KeysDiffer(a + 1, b - 3);
      } else {
        KeysDiffer(a - 3, b - 3);
      }
    }
  }

  /** One day of the `set_schedule` service: the `delete` flag and the given times. */
  datatype DayInput = DayInput(delete: Option<bool>, times: map<string, TimeOfDay>)

  datatype ScheduleError = HalfPair(index: int) | EmptyRange(index: int) | Overlap(index: int)

  /** Pair i has both its start and its end. */
  predicate Present(t: map<string, TimeOfDay>, i: int)
    requires 1 <= i <= 4
  {
    StartKey(i) in t && EndKey(i) in t
  }

  /** Pair i has both ends or neither. */
  predicate Paired(t: map<string, TimeOfDay>, i: int)
    requires 1 <= i <= 4
  {
    (StartKey(i) in t) == (EndKey(i) in t)
  }

  /** Pairs `lo..4` are complete, non-empty, start at or after `previousEnd` and do not overlap. */
  predicate OrderedFrom(t: map<string, TimeOfDay>, lo: int, previousEnd: Option<int>)
    requires 1 <= lo <= 5
  {
    && (forall i :: lo <= i <= 4 ==> Paired(t, i))
    && (forall i :: lo <= i <= 4 && Present(t, i) ==> t[StartKey(i)] < t[EndKey(i)])
    && (forall i :: lo <= i <= 4 && Present(t, i) && previousEnd.Some? ==> previousEnd.value <= t[StartKey(i)])
    && (forall i, j :: lo <= i < j <= 4 && Present(t, i) && Present(t, j) ==> t[EndKey(i)] <= t[StartKey(j)])
  }

  /** A day's times form at most four complete, non-empty, non-overlapping intervals in index order. */
  predicate WellOrdered(t: map<string, TimeOfDay>) {
    OrderedFrom(t, 1, None)
  }

  /** The loop over pairs `i..4` of `validate_cometblue_schedule`; absent pairs are skipped. */
  function CheckPairs(t: map<string, TimeOfDay>, i: int, previousEnd: Option<int>): (r: Result<(), ScheduleError>)
    requires 1 <= i <= 5
    ensures r.Err? ==> i <= r.error.index <= 4
    decreases 5 - i
  {
    if i == 5 then Ok(())
    else if StartKey(i) !in t && EndKey(i) !in t then CheckPairs(t, i + 1, previousEnd)
    else if StartKey(i) !in t || EndKey(i) !in t then Err(HalfPair(i))
    else if t[StartKey(i)] >= t[EndKey(i)] then Err(EmptyRange(i))
    else if previousEnd.Some? && previousEnd.value > t[StartKey(i)] then Err(Overlap(i))
    else CheckPairs(t, i + 1, Some(t[EndKey(i)]))
  }

  /** Checking consecutive present pairs is the same as checking every pair of pairs. */
  lemma {:induction false} CheckPairsCorrect(t: map<string, TimeOfDay>, i: int, previousEnd: Option<int>)
    requires 1 <= i <= 5
    ensures CheckPairs(t, i, previousEnd).Ok? <==> OrderedFrom(t, i, previousEnd)
    decreases 5 - i
  {
    if i == 5 {
    } else if StartKey(i) !in t && EndKey(i) !in t {
      CheckPairsCorrect(t, i + 1, previousEnd);
      assert !Present(t, i);
    } else if StartKey(i) !in t || EndKey(i) !in t {
      assert !Paired(t, i);
    } else if t[StartKey(i)] >= t[EndKey(i)] {
      assert Present(t, i);
    } else if previousEnd.Some? && previousEnd.value > t[StartKey(i)] {
      assert Present(t, i);
    } else {
      var e := t[EndKey(i)];
      CheckPairsCorrect(t, i + 1, Some(e));
      assert Present(t, i);
      if OrderedFrom(t, i + 1, Some(e)) {
        forall j | i <= j <= 4 && Present(t, j) && previousEnd.Some?
          ensures previousEnd.value <= t[StartKey(j)]
        {
          if j > i {
            assert t[StartKey(i)] < e <= t[StartKey(j)];
          }
        }
        forall a, b | i <= a < b <= 4 && Present(t, a) && Present(t, b)
          ensures t[EndKey(a)] <= t[StartKey(b)]
        {
          if a > i {
            assert OrderedFrom(t, i + 1, Some(e));
          }
        }
      }
      if OrderedFrom(t, i, previousEnd) {
        forall j | i + 1 <= j <= 4 && Present(t, j)
          ensures e <= t[StartKey(j)]
        {
          assert t[EndKey(i)] <= t[StartKey(j)];
        }
      }
    }
  }

  /** A refusal names a pair that is at fault: a half pair, or a complete pair that is empty or
      starts before the previous one ends. */
  lemma {:induction false} CheckPairsBlamesPair(t: map<string, TimeOfDay>, i: int, previousEnd: Option<int>)
    requires 1 <= i <= 5
    ensures var r := CheckPairs(t, i, previousEnd);
            && (r.Err? && r.error.HalfPair? ==> !Paired(t, r.error.index))
            && (r.Err? && r.error.EmptyRange? ==>
                  Present(t, r.error.index) && t[StartKey(r.error.index)] >= t[EndKey(r.error.index)])
            && (r.Err? && r.error.Overlap? ==> Present(t, r.error.index))
    decreases 5 - i
  {
    if i < 5 && StartKey(i) !in t && EndKey(i) !in t {
      CheckPairsBlamesPair(t, i + 1, previousEnd);
    } else if i < 5 && StartKey(i) in t && EndKey(i) in t && t[StartKey(i)] < t[EndKey(i)] {
      CheckPairsBlamesPair(t, i + 1, Some(t[EndKey(i)]));
    }
  }

  /** `validate_cometblue_schedule`, with `delete` already separated from the times:
      a set `delete` clears the day, no times leaves it alone, other times must be well ordered. */
  function ValidateSchedule(day: DayInput): (r: Result<Option<map<string, TimeOfDay>>, ScheduleError>)
    ensures day.delete == Some(true) ==> r == Ok(Some(map[]))
    ensures day.delete != Some(true) && day.times == map[] ==> r == Ok(None)
    ensures day.delete != Some(true) && day.times != map[] ==>
              (r.Ok? <==> WellOrdered(day.times)) && (r.Ok? ==> r.value == Some(day.times))
  {
    if day.delete == Some(true) then Ok(Some(map[]))
    else if day.times == map[] then Ok(None)
    else
      CheckPairsCorrect(day.times, 1, None);
      match CheckPairs(day.times, 1, None)
      case Ok(_) => Ok(Some(day.times))
      case Err(e) => Err(e)
  }

  lemma KeyNames()
    ensures StartKey(1) == "start1" && StartKey(2) == "start2" && StartKey(3) == "start3" && StartKey(4) == "start4"
    ensures EndKey(1) == "end1" && EndKey(2) == "end2" && EndKey(3) == "end3" && EndKey(4) == "end4"
  {
  }

  /** 08:00-09:00 followed by 08:30-10:00 is refused as overlapping. */
  lemma OverlappingExample()
    ensures ValidateSchedule(DayInput(None, map["start1" := 28800, "end1" := 32400,
                                                 "start2" := 30600, "end2" := 36000])) == Err(Overlap(2))
  {
    KeyNames();
    var t := map["start1" := 28800, "end1" := 32400, "start2" := 30600, "end2" := 36000];
    assert CheckPairs(t, 2, Some(32400)) == Err(Overlap(2));
    assert CheckPairs(t, 1, None) == Err(Overlap(2));
  }

  /** 08:00-09:00 followed by 09:30-10:00 is accepted unchanged. */
  lemma SeparateExample()
    ensures var t := map["start1" := 28800, "end1" := 32400, "start2" := 34200, "end2" := 36000];
            ValidateSchedule(DayInput(None, t)) == Ok(Some(t))
  {
    KeyNames();
    var t := map["start1" := 28800, "end1" := 32400, "start2" := 34200, "end2" := 36000];
    assert "start3" !in t && "end3" !in t && "start4" !in t && "end4" !in t;
    assert CheckPairs(t, 4, Some(36000)) == Ok(());
    assert CheckPairs(t, 3, Some(36000)) == Ok(());
    assert CheckPairs(t, 2, Some(32400)) == Ok(());
    assert CheckPairs(t, 1, None) == Ok(());
  }
}

=== FILE: values.dfy ===
/** Python value conventions shared by the whole model: `None`, error returns and dict lookups. */
module Values {

  /** Python's `None` or a value. */
  datatype Option<+T> = None | Some(value: T) {
    function GetOr(default: T): T {
      match this
      case Some(v) => v
      case None => default
    }
  }

  /** A normal return or a raised exception. */
  datatype Result<+T, +E> = Ok(value: T) | Err(error: E)

  /** A dict of device attributes. Each value is a number in its attribute's own unit
      (half-degrees for temperatures, minutes for durations, 0/1 for flags) or `None`. */
  type Dict = map<string, Option<int>>

  /** `d.get(k)`: an absent key reads as `None`. */
  function Get(d: Dict, k: string): Option<int> {
    if k in d then d[k] else None
  }

  /** Python truthiness of a number-or-None: `None`, `0`, `0.0` and `False` are falsy. */
  predicate Truthy(v: Option<int>) {
    v.Some? && v.value != 0
  }

  /** Python's `a or b`. */
  function Or(a: Option<int>, b: Option<int>): Option<int> {
    if Truthy(a) then a else b
  }
}
